=== FILE: README.md ===
# Breakout on handheld sprite hardware — a Dafny model of `labo4.c`

`labo4.c` is a small breakout game for a handheld console. A ball, a paddle and
a 5×5 grid of blocks are hardware sprites. Each frame the game reads the
buttons, moves the paddle and the ball, bounces the ball off the walls, the
ceiling and the paddle, resets the rally when the paddle misses, breaks the
blocks the ball touches, and writes the new positions back to the sprite
attribute table (OAM).

This project models the logic of that file as pure functions over immutable
values. It proves the properties labo4.c promises.

- `oam.dfy` (module `Oam`): the OAM attribute words as `bv16` values. It covers
  the read-modify-write operations `isHidden`, `hide`, `unhide` and the two
  halves of `position`, plus the RGB555 colour packing `get_color`.
- `sprite.dfy` (module `Sprites`): the sprite record, which holds its
  hardware record by value, plus `create_sprite`, `velocity` (integration with
  saturating clamps) and `collides`. `collides` keeps the C code's narrowing
  of the coordinates to `uint8`, written as `% 256`.
- `game.dfy` (module `Game`): the button mask, the sprite slot numbering,
  start-up, `resetGame`, the block loop, and one iteration of the main loop as
  `Step(state, keys)`.
- `game_proofs.dfy` (module `GameProofs`): properties of whole frames. These
  are an invariant every frame keeps, the reset on a miss, wall bounces, the
  parity rule of the block phase, and a proof that the `uint8` narrowing never
  changes a collision outcome in a reachable state.

Modelling decisions:

- A sprite's `x`, `y`, `dx` and `dy` are unbounded `int`s. `w` and `h` are
  `uint8` (`U8`). `v & 0xFF` and `v & 0x1FF` on a C `int` are written as the
  Euclidean remainders mod 256 and 512. For two's complement this also holds
  for negative values.
- labo4.c holds each sprite's hardware record through a pointer. Here the
  record is a field of the sprite, and `slot` records which table entry it is.
  There is no aliasing, because every sprite has its own slot
  (`Game.BlockSlotsDistinct`, `GameProofs.InvSlotsDistinct`).
- `create_sprite` never writes `dx` or `dy`, so the paddle's velocity is
  whatever was on the heap. `Game.Setup` takes the paddle's `dx` and `dy` as
  parameters. The blocks' velocities are never read, so they are set to 0.
- The block loop runs over columns outside and rows inside
  (`blokken[yRow][xRow]`). The model keeps that visiting order: index `k`
  visits row `k % 5`, column `k / 5`.

Two places where the code departs from what one might expect; the model
follows the code:

- One might expect the paddle's vertical velocity to be zero. The code
  never sets it. `GameProofs.PaddleKeepsRow` proves that the paddle stays on
  its row when `dy` is 0. `GameProofs.PaddleDriftsWithStaleDy` shows what a
  leftover value of 2 or more does.
- One might expect `collides` to compare full coordinates. The code narrows
  them to `uint8` first, and the model keeps that narrowing.
  `Sprites.CollidesWrapsOutOfRange` shows where the narrowing would matter. `GameProofs.StepCollisionsExact` proves that it
  never matters in a reachable state, so it is not listed as a finding.

## Model

| member | source | states |
|---|---|---|
| Oam.IsHidden | labo4.c:52-56 | the flag read is bit 9 of attr0 alone: the result is 0 or 0x200, and non-zero exactly when bit 9 is set |
| Oam.Hide | labo4.c:58-62 | afterwards the sprite reads as hidden, bits 8-9 are exactly `10`, and every other bit of attr0 is kept |
| Oam.Unhide | labo4.c:64-68 | afterwards the sprite reads as shown, bits 8-9 are clear, and every other bit of attr0 is kept |
| Oam.HideIdempotent | labo4.c:58-62 | hiding twice is hiding once |
| Oam.UnhideIdempotent | labo4.c:64-68 | showing twice is showing once |
| Oam.HideUnhideAbsorb | labo4.c:58-68 | hide then unhide is unhide, and unhide then hide is hide: only the last call counts |
| Oam.Low8 | labo4.c:75 | `y & 0xFF` on a two's-complement `int` is the word holding y mod 256, negative y included, with no bit above bit 7 |
| Oam.Low9 | labo4.c:76 | `x & 0x1FF` on a two's-complement `int` is the word holding x mod 512, with no bit above bit 8 |
| Oam.PlaceY | labo4.c:75 | attr0's low byte becomes `y & 0xFF`, all other bits are kept, and the hide flag is unchanged |
| Oam.PlaceX | labo4.c:76 | attr1's low nine bits become `x & 0x1FF`, and all other bits are kept |
| Oam.PlaceYOfPlaced | labo4.c:75 | writing a y that attr0 already shows leaves attr0 unchanged |
| Oam.PlaceXOfPlaced | labo4.c:76 | writing an x that attr1 already shows leaves attr1 unchanged |
| Oam.PlaceYCommutesWithHide | labo4.c:58-77 | positioning and hiding or showing touch disjoint bits, so their order does not matter |
| Oam.GetColor | labo4.c:85-91 | the colour is below 0x8000, and its three 5-bit fields hold the low five bits of r, g and b |
| Oam.GetColorRoundTrip | labo4.c:85-91 | every 15-bit colour is rebuilt exactly from its own three fields, so packing loses nothing |
| Game.PaletteColours | labo4.c:141-183 | the start-up palette entries are 0x7FFF (white), 0x001F (red) and 0x03E0 (green) |
| Sprites.HideSprite | labo4.c:58-62 | the sprite becomes hidden, with the hide pair exactly `10`; position, velocity, hitbox, slot, attr1 and attr2 are untouched, and a synced record stays synced |
| Sprites.UnhideSprite | labo4.c:64-68 | the sprite becomes shown, with the hide pair exactly `00`, and the same things are untouched |
| Sprites.UnhideOfShown | labo4.c:64-68 | showing a sprite whose hide pair is already clear changes nothing |
| Sprites.Position | labo4.c:70-77 | the record shows the sprite's position, bits outside the coordinate fields are kept, attr2 and visibility are unchanged, and only the record changes |
| Sprites.PositionIdempotent | labo4.c:70-77 | positioning twice is positioning once |
| Sprites.PositionOfSynced | labo4.c:70-77 | positioning a sprite whose record already shows its position changes nothing |
| Sprites.CreateSprite | labo4.c:96-106 | the new sprite has the given position, hitbox and slot, its record shows the position, and the record's other bits come from the given record |
| Sprites.Velocity | labo4.c:108-118 | with `w <= 240` and `h <= 160` the result lies in `[0, 240-w] x [0, 160-h]`; an in-range move is exact; an overshoot saturates at the crossed edge; dx, dy, w, h and the record are unchanged |
| Sprites.Trunc8 | labo4.c:122-129 | the `uint8` conversion keeps values in [0, 255] and otherwise differs by a multiple of 256 |
| Sprites.Collides | labo4.c:120-136 | when both positions fit in a byte, the narrowed test is exactly the integer overlap of the two half-open hitboxes |
| Sprites.CollidesSymmetric | labo4.c:120-136 | `collides(a, b) == collides(b, a)` |
| Sprites.CollidesIsOverlapInRange | labo4.c:120-136 | when both positions are in [0, 255], the narrowed test equals the plain integer box overlap |
| Sprites.CollidesWrapsOutOfRange | labo4.c:122-131 | out of that range the narrowing is wrong: a box 256 pixels away is reported as colliding |
| Sprites.CollidesExamples | labo4.c:131 | boxes (0,0,8,8) and (8,0,8,8) only touch and do not collide; (0,0,8,8) and (4,4,8,8) collide |
| Sprites.CollidesSelf | labo4.c:131 | a sprite collides with itself exactly when its hitbox is non-empty |
| Game.ReadKeys | labo4.c:232-235 | the mask has only the ten button bits, and each of the ten is set exactly when its raw bit is 0 (no bit is set in both, every button bit is set in one); in particular LEFT and RIGHT, and an idle register gives 0 |
| Game.ReadKeysUnique | labo4.c:232-235 | any ten-bit value set exactly where the raw register reads 0 is the mask, so the register determines every button bit |
| Game.BlockSlot | labo4.c:259-260 | the `uint8` slot of block (j, i) lies in [2, 26] and encodes the cell: (slot - 2) / 5 is the row and (slot - 2) % 5 the column |
| Game.BlockSlotsDistinct | labo4.c:259 | block slots `(j*5)+i+2` lie in [2, 26], are pairwise distinct, and never equal the ball's slot 0 or the paddle's slot 1 |
| Game.Setup | labo4.c:237-262 | after start-up the ball is at (50,50) moving (2,1) in slot 0, the paddle is at (104,150) in slot 1, and each block (j,i) is shown at (25+40i, 10j) in slot `(j*5)+i+2`, with every record synced |
| Game.ResetBlock | labo4.c:216-219 | a block goes back home, is shown (hide pair `00`) and synced; its hitbox, slot and velocity are kept, and so are attr2 and its record bits outside the coordinate and hide fields |
| Game.ResetGame | labo4.c:201-225 | ball at (50,50) with velocity (2,1); paddle at (104,150) with dx and dy untouched; every block shown at (25+40i, 10j) and otherwise as ResetBlock leaves it; no w, h or slot changes; the ball's and paddle's attr2 and record bits outside the coordinate fields are kept |
| Game.ResetGameIdempotent | labo4.c:201-225 | resetting twice is resetting once |
| Game.PaddleInput | labo4.c:269-278 | no key leaves the paddle as it is; RIGHT leaves dx = -2 even when LEFT is also held; LEFT alone leaves dx = +2 and moves the paddle 2 pixels right, clamped at the right edge; RIGHT alone moves it 2 pixels left, clamped at 0; both single-key cases are exactly `velocity` with the new dx; after a key press the paddle is on screen; with dy = 0 its row is kept |
| Game.Bounce | labo4.c:280-289 | only the velocity changes, and only by sign; dx reverses exactly at a side wall, and dy reverses exactly once for ceiling or paddle, even when both hold |
| Game.VisitIndexInverse | labo4.c:297-301 | each visit index k in [0, 25) names the grid cell (k % 5, k / 5), and that cell maps back to k, so no two indices visit the same cell |
| Game.VisitIndexOnto | labo4.c:297-301 | every grid cell (j, i) has a visit index in [0, 25) that names it, so each of the 25 cells is visited |
| Game.HitCountFrame | labo4.c:297-308 | the number of blocks broken from index k on depends only on which unvisited blocks the ball breaks |
| Game.Missed | labo4.c:290-291 | for a ball on screen, a miss is exactly resting on the bottom edge y = 160 - h |
| Game.NewlyHit | labo4.c:302 | a hidden block is never hit; for byte-range positions a block is hit exactly when it is shown and overlaps the ball |
| Game.HitOne | labo4.c:301-306 | one loop pass hides the visited block and reverses dy exactly when that block is shown and overlaps the ball; nothing else changes |
| Game.HitOneLater | labo4.c:301-306 | a pass leaves later blocks, and the ball's hitbox they are tested against, as they were |
| Game.HitOneCount | labo4.c:297-308 | a pass does not change how many later blocks will be broken |
| Game.HitOneFlip | labo4.c:301-306 | a pass reverses dy exactly when its block counts as a hit |
| Game.HitBlocksFrom | labo4.c:297-308 | the block loop keeps the 5x5 grid and the paddle, and changes no part of the ball except dy |
| Game.NewlyHitIgnoresVelocity | labo4.c:302 | whether a block is hit does not depend on the ball's velocity, horizontal or vertical |
| Game.HitBlocksBall | labo4.c:297-308 | after the block loop, dy is reversed exactly when an odd number of shown, overlapping blocks were visited |
| Game.HitBlocksCells | labo4.c:297-308 | after the block loop, a visited block that was shown and overlapped is hidden; every other block is exactly as before, and no block moves |
| Game.HitBlocksKeepFrames | labo4.c:297-308 | the block loop keeps every block's hitbox and slot |
| Game.BeforeBlocks | labo4.c:268-294 | the key, move, bounce and miss phases keep the grid and every hitbox and slot, and leave the blocks untouched unless the ball missed |
| Game.Step | labo4.c:265-311 | one frame keeps the grid and every hitbox and slot, and ends with the ball's and paddle's records showing their positions |
| GameProofs.SetupInv | labo4.c:237-262 | the start-up state satisfies the frame invariant |
| GameProofs.InvSlotsDistinct | labo4.c:247-262 | in every state with the invariant, the 27 sprites occupy 27 different OAM slots |
| GameProofs.BallBelowBlocks | labo4.c:297-308 | a ball with 48 <= y < 256 breaks none of the blocks on their home rows (height 8) |
| GameProofs.StepBlockPhase | labo4.c:296-308 | in a whole frame, shown blocks the ball overlaps are hidden, all others are untouched, and dy ends reversed exactly when an odd number were hit |
| GameProofs.HiddenBlockIrrelevant | labo4.c:302-306 | an already hidden block is left unchanged, and swapping it for any other hidden block does not change the ball's resulting dy |
| GameProofs.HiddenBlockUncounted | labo4.c:302 | a hidden block never counts as a hit |
| GameProofs.BeforeBlocksOk | labo4.c:268-294 | the phases before the block loop keep ball and paddle on screen, with ball speed ±2/±1, and the blocks at home |
| GameProofs.HitBlocksOk | labo4.c:296-308 | the block loop keeps ball and paddle on screen and the blocks at home |
| GameProofs.HitBlocksKeepBall | labo4.c:296-308 | the block loop keeps the ball on screen with dy still ±1 |
| GameProofs.HitBlocksKeepBlocks | labo4.c:296-308 | the block loop keeps every block at home, in its slot and synced |
| GameProofs.HideKeepsBlockOk | labo4.c:304 | hiding a block keeps it at home, in its slot and synced |
| GameProofs.StepPreservesInv | labo4.c:265-311 | every frame keeps the invariant: ball and paddle on screen, ball velocity (±2, ±1), blocks at home, distinct slots, records synced |
| GameProofs.StepCollisionsExact | labo4.c:286-302 | in every frame from a state with the invariant, each `collides` call equals the plain integer overlap, so the `uint8` narrowing is harmless |
| GameProofs.MissResets | labo4.c:290-294 | when the ball reaches the bottom, the frame ends with the ball at (50,50) moving (2,1), the paddle at (104,150) keeping its velocity, and all 25 blocks shown at home with none broken |
| GameProofs.MissResetsBefore | labo4.c:290-294 | on a miss, the state entering the block loop is the reset state |
| GameProofs.NoHitsBelowBlocks | labo4.c:297-308 | with blocks on their home rows (height 8) and the ball at 48 <= y < 256, the block loop changes nothing |
| GameProofs.NoHitsBelowBlocksCells | labo4.c:297-308 | with blocks on their home rows (height 8) and the ball at 48 <= y < 256, no block is changed |
| GameProofs.WallBounceLeft | labo4.c:279-284 | in a frame that is not a miss, a ball that would pass the left wall stops at x = 0 with dx reversed (x=1, dx=-1 gives x=0, dx=+1; x=0, dx=-3 gives dx=+3) |
| GameProofs.WallBounceRight | labo4.c:279-284 | in a frame that is not a miss, a ball that would pass the right wall stops at x = 240 - w with dx reversed |
| GameProofs.PaddleBothKeys | labo4.c:269-278 | with both keys held the paddle ends with dx = -2 and returns to its x, unless the first move hit the right edge, whatever its dy; with dy = 0 it also keeps its row |
| GameProofs.PaddleKeepsRow | labo4.c:269-294 | a paddle with dy = 0 stays on row 150 and keeps dy = 0, whether or not the frame resets |
| GameProofs.PaddleDriftsWithStaleDy | labo4.c:96-118 | a leftover dy >= 2 sends the paddle from row 150 to the bottom edge (152) on the first key press |
| GameProofs.HiddenStaysHidden | labo4.c:297-306 | a hidden block stays exactly as it is in every frame that is not a miss |

## Left out

- `vsync` (labo4.c:79-83) is a busy-wait on the scanline counter. It is about timing, not state, so `Step` simply runs once per frame.
- `initScreen` (labo4.c:227-230) writes the display register once. Reading `REG_KEY_INPUT` is hardware I/O. `Game.ReadKeys` takes the raw value as a parameter.
- The palette and tile-memory fills in `create_ball`, `create_paddle` and `create_blok` (labo4.c:138-199) are writes to memory-mapped hardware. Only their OAM constants (`BALL_OBJ`, `PADDLE_OBJ`, `BLOCK_OBJ`) and colours (`Game.PaletteColours`) are modelled.
- The counter `next_tile_mem` (labo4.c:94) is declared but never used.
- `malloc` and the sprite pointers (labo4.c:96-106) are not modelled. Sprites are values.
- The infinite `while(1)` is not modelled. The model covers single frames (`Step`) and the invariant that every frame keeps.
- The fourth OAM word (`unused`) is never touched, so it is not modelled.
- 32-bit `int` overflow is not modelled. Coordinates are unbounded integers. Under the invariant the ball and the paddle stay within the screen. Only a garbage paddle `dy` near the `int` limits could overflow `y += dy` in C.
- Game.Setup: the block sprites' `dx` and `dy` are uninitialised in labo4.c. The model sets them to 0, because no code reads them.

=== FILE: game.dfy ===
/**
  The breakout game: start-up allocation of the sprites, the reset that
  re-seeds a rally, the key mask, and one frame of the main loop as a pure
  step from one game state to the next.
 */
module Game {
  import opened Oam
  import opened Sprites

  const KEY_ANY: bv16 := 0x03FF
  const KEY_LEFT: bv16 := 0x10
  const KEY_RIGHT: bv16 := 0x20
  const VELOCITY := 2

  /** The block grid is GRID rows of GRID blocks. */
  const GRID := 5

  const BALL_X := 50
  const BALL_Y := 50
  const BALL_DX := 2
  const BALL_DY := 1
  const PADDLE_X := SCREEN_WIDTH / 2 - 32 / 2
  const PADDLE_Y := SCREEN_HEIGHT - 10

  /** Initial hardware records: square 8x8 ball on tile 1; wide 32x8 paddle on tile 2 and blocks on tile 6. */
  const BALL_OBJ := Obj(0, 0, 1)
  const PADDLE_OBJ := Obj(0x4000, 0x4000, 2)
  const BLOCK_OBJ := Obj(0x4000, 0x4000, 6)

  /** Home position of the block in row j, column i. */
  function BlockX(i: int): int { 25 + 40 * i }
  function BlockY(j: int): int { 10 * j }

  /**
    The pressed-button mask: the input register is active-low, so a button
    is pressed exactly when its bit reads 0; only the ten button bits remain.
   */
  function ReadKeys(raw: bv16): (keys: bv16)
    ensures keys & !KEY_ANY == 0
    ensures keys & KEY_LEFT != 0 <==> raw & KEY_LEFT == 0
    ensures keys & KEY_RIGHT != 0 <==> raw & KEY_RIGHT == 0
    ensures raw & KEY_ANY == KEY_ANY ==> keys == 0
    ensures keys & raw == 0
    ensures (keys | raw) & KEY_ANY == KEY_ANY
  {
    !raw & KEY_ANY
  }

  /**
    The mask is the only ten-bit value that is pressed exactly where the raw
    register reads 0: every button bit is determined by the register.
   */
  lemma ReadKeysUnique(raw: bv16, keys: bv16)
    requires keys & !KEY_ANY == 0 && keys & raw == 0 && (keys | raw) & KEY_ANY == KEY_ANY
    ensures keys == ReadKeys(raw)
  {
  }

  /** blocks[j][i] is the block in row j, column i. */
  datatype State = State(ball: Sprite, paddle: Sprite, blocks: seq<seq<Sprite>>)

  predicate GridShape(blocks: seq<seq<Sprite>>) {
    |blocks| == GRID && forall j :: 0 <= j < GRID ==> |blocks[j]| == GRID
  }

  predicate InGrid(j: int, i: int) {
    0 <= j < GRID && 0 <= i < GRID
  }

  /**
    The sprite slot of block (j, i), computed in a `uint8`. The ball and the
    paddle take slots 0 and 1 from the running slot counter, in that order.
   */
  function BlockSlot(j: int, i: int): (r: U8)
    ensures InGrid(j, i) ==> 2 <= r <= 26 && (r - 2) / GRID == j && (r - 2) % GRID == i
  {
    Trunc8(j * GRID + i + 2)
  }

  /** The running slot counter starts at 0 and hands the ball, then the paddle, the next free slot. */
  const FIRST_FREE_SLOT: nat := 0
  const BALL_SLOT: nat := FIRST_FREE_SLOT
  const PADDLE_SLOT: nat := BALL_SLOT + 1

  /** Block slots are pairwise distinct, lie in [2, 26] and never meet the ball's or paddle's slot. */
  lemma BlockSlotsDistinct(j: int, i: int, j': int, i': int)
    requires InGrid(j, i) && InGrid(j', i')
    ensures 2 <= BlockSlot(j, i) <= 26
    ensures BlockSlot(j, i) != BALL_SLOT && BlockSlot(j, i) != PADDLE_SLOT
    ensures BlockSlot(j, i) == BlockSlot(j', i') ==> j == j' && i == i'
  {
  }

  /**
    The game as it stands after start-up: ball, paddle, then the 25 blocks
    created in row-major order, each positioned at once. The paddle's and the
    blocks' velocities are never written by the C code; the paddle's are
    parameters and the blocks' (never read) are 0.
   */
  function Setup(paddleDx: int, paddleDy: int): (g: State)
    ensures GridShape(g.blocks)
    ensures g.ball.x == BALL_X && g.ball.y == BALL_Y
    ensures g.ball.dx == BALL_DX && g.ball.dy == BALL_DY
    ensures g.ball.w == 8 && g.ball.h == 8 && g.ball.slot == BALL_SLOT && Synced(g.ball)
    ensures g.paddle.x == PADDLE_X && g.paddle.y == PADDLE_Y
    ensures g.paddle.dx == paddleDx && g.paddle.dy == paddleDy
    ensures g.paddle.w == 32 && g.paddle.h == 8 && g.paddle.slot == PADDLE_SLOT && Synced(g.paddle)
    ensures forall j, i | InGrid(j, i) ::
      var b := g.blocks[j][i];
      && b.x == BlockX(i) && b.y == BlockY(j) && b.w == 32 && b.h == 8
      && b.slot == BlockSlot(j, i) && Synced(b) && !Hidden(b)
  {
    var ball := CreateSprite(BALL_OBJ, BALL_SLOT, BALL_X, BALL_Y, 8, 8, 0, 0);
    var paddle := CreateSprite(PADDLE_OBJ, PADDLE_SLOT, PADDLE_X, PADDLE_Y, 32, 8, paddleDx, paddleDy);
    var blocks := seq(GRID, j requires 0 <= j < GRID =>
      seq(GRID, i requires 0 <= i < GRID =>
        CreateSprite(BLOCK_OBJ, BlockSlot(j, i), BlockX(i), BlockY(j), 32, 8, 0, 0)));
    State(ball.(dx := BALL_DX, dy := BALL_DY), paddle, blocks)
  }

  /** The three palette entries written at start-up: white ball, red paddle, green blocks. */
  lemma PaletteColours()
    ensures GetColor(31, 31, 31) == 0x7FFF
    ensures GetColor(31, 0, 0) == 0x001F
    ensures GetColor(0, 31, 0) == 0x03E0
  {
  }

  /** Width, height and slot: the parts of a sprite no frame may change. */
  predicate SameFrame(a: Sprite, b: Sprite) {
    a.w == b.w && a.h == b.h && a.slot == b.slot
  }

  /** Block (j, i) back at its home position, shown, and pushed to hardware. */
  function ResetBlock(b: Sprite, j: int, i: int): (r: Sprite)
    ensures r.x == BlockX(i) && r.y == BlockY(j)
    ensures !Hidden(r) && Synced(r)
    ensures r.obj.attr0 & HIDE_MASK == 0
    ensures SameFrame(r, b) && r.dx == b.dx && r.dy == b.dy
    ensures r.obj.attr0 & !(Y_MASK | HIDE_MASK) == b.obj.attr0 & !(Y_MASK | HIDE_MASK)
    ensures r.obj.attr1 & !X_MASK == b.obj.attr1 & !X_MASK
    ensures r.obj.attr2 == b.obj.attr2
  {
    Position(UnhideSprite(b.(x := BlockX(i), y := BlockY(j))))
  }

  /**
    Re-seeds a rally: paddle and ball back to their start positions, the ball
    to its start velocity, every block shown at its home position. The
    paddle's velocity is left as it was.
   */
  function ResetGame(g: State): (r: State)
    requires GridShape(g.blocks)
    ensures GridShape(r.blocks)
    ensures r.ball.x == BALL_X && r.ball.y == BALL_Y
    ensures r.ball.dx == BALL_DX && r.ball.dy == BALL_DY
    ensures SameFrame(r.ball, g.ball) && Synced(r.ball) && Hidden(r.ball) == Hidden(g.ball)
    ensures r.ball.obj.attr0 & !Y_MASK == g.ball.obj.attr0 & !Y_MASK
    ensures r.ball.obj.attr1 & !X_MASK == g.ball.obj.attr1 & !X_MASK
    ensures r.ball.obj.attr2 == g.ball.obj.attr2
    ensures r.paddle.x == PADDLE_X && r.paddle.y == PADDLE_Y
    ensures r.paddle.dx == g.paddle.dx && r.paddle.dy == g.paddle.dy
    ensures SameFrame(r.paddle, g.paddle) && Synced(r.paddle) && Hidden(r.paddle) == Hidden(g.paddle)
    ensures r.paddle.obj.attr0 & !Y_MASK == g.paddle.obj.attr0 & !Y_MASK
    ensures r.paddle.obj.attr1 & !X_MASK == g.paddle.obj.attr1 & !X_MASK
    ensures r.paddle.obj.attr2 == g.paddle.obj.attr2
    ensures forall j, i | InGrid(j, i) :: r.blocks[j][i] == ResetBlock(g.blocks[j][i], j, i)
  {
    var paddle := Position(g.paddle.(x := PADDLE_X, y := PADDLE_Y));
    var ball := Position(g.ball.(x := BALL_X, y := BALL_Y, dx := BALL_DX, dy := BALL_DY));
    var blocks := seq(GRID, j requires 0 <= j < GRID =>
      seq(GRID, i requires 0 <= i < GRID => ResetBlock(g.blocks[j][i], j, i)));
    State(ball, paddle, blocks)
  }

  /** Resetting twice is resetting once. */
  lemma ResetGameIdempotent(g: State)
    requires GridShape(g.blocks)
    ensures ResetGame(ResetGame(g)) == ResetGame(g)
  {
    var r := ResetGame(g);
    var r2 := ResetGame(r);
    PositionOfSynced(r.ball);
    PositionOfSynced(r.paddle);
    forall j | 0 <= j < GRID
      ensures r2.blocks[j] == r.blocks[j]
    {
      forall i | 0 <= i < GRID
        ensures r2.blocks[j][i] == r.blocks[j][i]
      {
        var b := r.blocks[j][i];
        UnhideOfShown(b);
        PositionOfSynced(b);
      }
    }
  }

  /**
    The key phase of a frame. Each of the two key branches sets the paddle's
    horizontal velocity and integrates it; when both keys are held both run,
    left first, so right's velocity is the one that remains.
   */
  function PaddleInput(p: Sprite, keys: bv16): (r: Sprite)
    ensures SameFrame(r, p) && r.obj == p.obj && r.dy == p.dy
    ensures keys & (KEY_LEFT | KEY_RIGHT) == 0 ==> r == p
    ensures keys & KEY_RIGHT != 0 ==> r.dx == -VELOCITY
    ensures keys & KEY_LEFT != 0 && keys & KEY_RIGHT == 0 ==> r.dx == VELOCITY
    ensures keys & KEY_LEFT != 0 && keys & KEY_RIGHT == 0 ==> r == Velocity(p.(dx := VELOCITY))
    ensures keys & KEY_LEFT == 0 && keys & KEY_RIGHT != 0 ==> r == Velocity(p.(dx := -VELOCITY))
    ensures keys & KEY_LEFT != 0 && keys & KEY_RIGHT == 0 && p.w <= SCREEN_WIDTH && 0 <= p.x <= MaxX(p) ==>
      r.x == if p.x + VELOCITY > MaxX(p) then MaxX(p) else p.x + VELOCITY
    ensures keys & KEY_LEFT == 0 && keys & KEY_RIGHT != 0 && p.w <= SCREEN_WIDTH && 0 <= p.x <= MaxX(p) ==>
      r.x == if p.x - VELOCITY < 0 then 0 else p.x - VELOCITY
    ensures keys & (KEY_LEFT | KEY_RIGHT) != 0 && p.w <= SCREEN_WIDTH ==> 0 <= r.x <= MaxX(p)
    ensures keys & (KEY_LEFT | KEY_RIGHT) != 0 && p.h <= SCREEN_HEIGHT ==> 0 <= r.y <= MaxY(p)
    ensures p.dy == 0 && 0 <= p.y <= MaxY(p) ==> r.y == p.y
  {
    var p1 := if keys & KEY_LEFT != 0 then Velocity(p.(dx := VELOCITY)) else p;
    if keys & KEY_RIGHT != 0 then Velocity(p1.(dx := -VELOCITY)) else p1
  }

  /**
    The wall and paddle phase: the horizontal velocity reverses at either side
    wall; the vertical velocity reverses once if the ball is at the ceiling or
    on the paddle (both at once still reverse it only once).
   */
  function Bounce(b: Sprite, paddle: Sprite): (r: Sprite)
    ensures r.(dx := b.dx, dy := b.dy) == b
    ensures r.dx == b.dx || r.dx == -b.dx
    ensures r.dy == b.dy || r.dy == -b.dy
    ensures 0 < b.x < MaxX(b) ==> r.dx == b.dx
    ensures b.dx != 0 ==> (r.dx != b.dx <==> b.x <= 0 || b.x >= MaxX(b))
    ensures b.dy != 0 ==> (r.dy != b.dy <==> b.y <= 0 || Collides(b, paddle))
  {
    var b1 := if b.x <= 0 || b.x >= MaxX(b) then b.(dx := -b.dx) else b;
    if b1.y <= 0 || Collides(b1, paddle) then b1.(dy := -b1.dy) else b1
  }

  /** The ball has reached the bottom edge: the paddle missed it. */
  predicate Missed(ball: Sprite): (r: bool)
    ensures 0 <= ball.y <= MaxY(ball) ==> (r <==> ball.y == MaxY(ball))
  {
    ball.y >= MaxY(ball)
  }

  /** A block the ball breaks this frame: shown and overlapping the ball. */
  predicate NewlyHit(ball: Sprite, b: Sprite): (r: bool)
    ensures Hidden(b) ==> !r
    ensures InByteRange(ball) && InByteRange(b) ==> (r <==> Overlap(ball, b) && !Hidden(b))
  {
    Collides(ball, b) && !Hidden(b)
  }

  /**
    The block loop runs over columns outside and rows inside, so the k-th
    block it visits is row k % 5, column k / 5; VisitIndex is the inverse.
   */
  function VisitIndex(j: int, i: int): int { i * GRID + j }

  lemma VisitIndexInverse(k: int)
    requires 0 <= k < GRID * GRID
    ensures InGrid(k % GRID, k / GRID) && VisitIndex(k % GRID, k / GRID) == k
  {
  }

  /** Every cell of the grid is visited: its index is one of the 25 and maps back to it. */
  lemma VisitIndexOnto(j: int, i: int)
    requires InGrid(j, i)
    ensures 0 <= VisitIndex(j, i) < GRID * GRID
    ensures VisitIndex(j, i) % GRID == j && VisitIndex(j, i) / GRID == i
  {
  }

  /** How many blocks visited at index k or later the ball breaks. */
  function HitCount(ball: Sprite, blocks: seq<seq<Sprite>>, k: nat): nat
    requires GridShape(blocks) && k <= GRID * GRID
    decreases GRID * GRID - k
  {
    if k == GRID * GRID then 0
    else
      VisitIndexInverse(k);
      (if NewlyHit(ball, blocks[k % GRID][k / GRID]) then 1 else 0) + HitCount(ball, blocks, k + 1)
  }

  /** dy after n reversals. */
  function Flip(dy: int, n: nat): int {
    if n % 2 == 0 then dy else -dy
  }

  /** HitCount only depends on which of the blocks not yet visited the ball breaks. */
  lemma {:induction false} HitCountFrame(b1: Sprite, bl1: seq<seq<Sprite>>, b2: Sprite, bl2: seq<seq<Sprite>>, k: nat)
    requires GridShape(bl1) && GridShape(bl2) && k <= GRID * GRID
    requires forall j, i | InGrid(j, i) && VisitIndex(j, i) >= k :: NewlyHit(b1, bl1[j][i]) == NewlyHit(b2, bl2[j][i])
    ensures HitCount(b1, bl1, k) == HitCount(b2, bl2, k)
    decreases GRID * GRID - k
  {
    if k < GRID * GRID {
      VisitIndexInverse(k);
      HitCountFrame(b1, bl1, b2, bl2, k + 1);
    }
  }

  /** The block the loop visits at index k. */
  function Visited(blocks: seq<seq<Sprite>>, k: nat): Sprite
    requires GridShape(blocks) && k < GRID * GRID
  {
    VisitIndexInverse(k);
    blocks[k % GRID][k / GRID]
  }

  /**
    One pass of the block loop's body: if the visited block is shown and the
    ball overlaps it, the block is hidden and the ball's vertical velocity
    reverses; otherwise nothing changes.
   */
  function HitOne(g: State, k: nat): (r: State)
    requires GridShape(g.blocks) && k < GRID * GRID
    ensures GridShape(r.blocks)
    ensures r.paddle == g.paddle
    ensures r.ball == g.ball.(dy := if NewlyHit(g.ball, Visited(g.blocks, k)) then -g.ball.dy else g.ball.dy)
    ensures forall j, i | InGrid(j, i) ::
      r.blocks[j][i] ==
        if VisitIndex(j, i) == k && NewlyHit(g.ball, g.blocks[j][i])
        then HideSprite(g.blocks[j][i]) else g.blocks[j][i]
  {
    VisitIndexInverse(k);
    var j, i := k % GRID, k / GRID;
    var b := g.blocks[j][i];
    if Collides(g.ball, b) && !Hidden(b)
    then g.(ball := g.ball.(dy := -g.ball.dy), blocks := g.blocks[j := g.blocks[j][i := HideSprite(b)]])
    else g
  }

  /** The block loop from visiting index k to the end. */
  function HitBlocksFrom(g: State, k: nat): (r: State)
    requires GridShape(g.blocks) && k <= GRID * GRID
    ensures GridShape(r.blocks)
    ensures r.paddle == g.paddle
    ensures r.ball.(dy := g.ball.dy) == g.ball
    decreases GRID * GRID - k
  {
    if k == GRID * GRID then g else HitBlocksFrom(HitOne(g, k), k + 1)
  }

  /** Changing the ball's velocity, either component, does not change whom the ball overlaps. */
  lemma NewlyHitIgnoresVelocity(ball: Sprite, dx: int, dy: int, b: Sprite)
    ensures NewlyHit(ball.(dx := dx, dy := dy), b) == NewlyHit(ball, b)
    ensures NewlyHit(ball.(dy := dy), b) == NewlyHit(ball, b)
  {
  }

  /** A block visited after index k sees the same ball hitbox and is itself untouched at k. */
  lemma HitOneLater(g: State, k: nat, j: int, i: int)
    requires GridShape(g.blocks) && k < GRID * GRID && InGrid(j, i) && VisitIndex(j, i) > k
    ensures NewlyHit(HitOne(g, k).ball, HitOne(g, k).blocks[j][i]) == NewlyHit(g.ball, g.blocks[j][i])
  {
    var g' := HitOne(g, k);
    assert g'.blocks[j][i] == g.blocks[j][i];
    NewlyHitIgnoresVelocity(g.ball, g.ball.dx, g'.ball.dy, g.blocks[j][i]);
  }

  /**
    The ball after the block phase from visiting index k on: each shown block
    the ball overlaps reverses its vertical velocity once, so the net reversal
    is the parity of the number of blocks broken.
   */
  lemma {:induction false} HitBlocksBall(g: State, k: nat)
    requires GridShape(g.blocks) && k <= GRID * GRID
    ensures HitBlocksFrom(g, k).ball == g.ball.(dy := Flip(g.ball.dy, HitCount(g.ball, g.blocks, k)))
    decreases GRID * GRID - k
  {
    if k < GRID * GRID {
      HitOneCount(g, k);
      HitOneFlip(g, k);
      HitBlocksBall(HitOne(g, k), k + 1);
    }
  }

  /** The blocks still to visit after one pass count the same hits as before it. */
  lemma HitOneCount(g: State, k: nat)
    requires GridShape(g.blocks) && k < GRID * GRID
    ensures HitCount(HitOne(g, k).ball, HitOne(g, k).blocks, k + 1) == HitCount(g.ball, g.blocks, k + 1)
  {
    var g' := HitOne(g, k);
    forall j, i | InGrid(j, i) && VisitIndex(j, i) >= k + 1
      ensures NewlyHit(g'.ball, g'.blocks[j][i]) == NewlyHit(g.ball, g.blocks[j][i])
    {
      HitOneLater(g, k, j, i);
    }
    HitCountFrame(g'.ball, g'.blocks, g.ball, g.blocks, k + 1);
  }

  /** One pass reverses dy exactly when the visited block counts as a hit. */
  lemma HitOneFlip(g: State, k: nat)
    requires GridShape(g.blocks) && k < GRID * GRID
    ensures Flip(HitOne(g, k).ball.dy, HitCount(g.ball, g.blocks, k + 1)) == Flip(g.ball.dy, HitCount(g.ball, g.blocks, k))
  {
    var rest := HitCount(g.ball, g.blocks, k + 1);
    if NewlyHit(g.ball, Visited(g.blocks, k)) {
      FlipOnce(g.ball.dy, rest);
    }
  }

  lemma FlipOnce(dy: int, n: nat)
    ensures Flip(-dy, n) == Flip(dy, n + 1)
  {
  }

  /**
    The blocks after the block phase from visiting index k on: a shown block
    the ball overlaps is hidden; a hidden one, one the ball misses and one
    visited before k are left exactly as they were; nothing moves.
   */
  /** The block loop keeps every block's hitbox and slot. */
  lemma HitBlocksKeepFrames(g: State)
    requires GridShape(g.blocks)
    ensures forall j, i | InGrid(j, i) :: SameFrame(HitBlocksFrom(g, 0).blocks[j][i], g.blocks[j][i])
  {
    forall j, i | InGrid(j, i)
      ensures SameFrame(HitBlocksFrom(g, 0).blocks[j][i], g.blocks[j][i])
    {
      HitBlocksCells(g, 0, j, i);
    }
  }

  lemma {:induction false} HitBlocksCells(g: State, k: nat, j: int, i: int)
    requires GridShape(g.blocks) && k <= GRID * GRID && InGrid(j, i)
    ensures HitBlocksFrom(g, k).blocks[j][i] ==
      if VisitIndex(j, i) >= k && NewlyHit(g.ball, g.blocks[j][i])
      then HideSprite(g.blocks[j][i]) else g.blocks[j][i]
    decreases GRID * GRID - k
  {
    if k < GRID * GRID {
      var g' := HitOne(g, k);
      HitBlocksCells(g', k + 1, j, i);
      NewlyHitIgnoresVelocity(g.ball, g.ball.dx, g'.ball.dy, g.blocks[j][i]);
    }
  }

  /**
    The part of a frame before the block loop: keys move the paddle, the ball
    moves and bounces off the walls and the paddle, and a miss resets the rally.
   */
  function BeforeBlocks(g: State, keys: bv16): (r: State)
    requires GridShape(g.blocks)
    ensures GridShape(r.blocks)
    ensures SameFrame(r.ball, g.ball) && SameFrame(r.paddle, g.paddle)
    ensures !Missed(Bounce(Velocity(g.ball), PaddleInput(g.paddle, keys))) ==> r.blocks == g.blocks
    ensures forall j, i | InGrid(j, i) :: SameFrame(r.blocks[j][i], g.blocks[j][i])
  {
    var paddle := PaddleInput(g.paddle, keys);
    var ball := Bounce(Velocity(g.ball), paddle);
    var g1 := State(ball, paddle, g.blocks);
    if Missed(ball) then ResetGame(g1) else g1
  }

  /**
    One frame of the main loop, between two vertical blanks, given the
    pressed-button mask: the part before the block loop, the block loop, and
    the ball and paddle positions pushed to hardware.
   */
  function Step(g: State, keys: bv16): (r: State)
    requires GridShape(g.blocks)
    ensures GridShape(r.blocks)
    ensures SameFrame(r.ball, g.ball) && SameFrame(r.paddle, g.paddle)
    ensures Synced(r.ball) && Synced(r.paddle)
    ensures forall j, i | InGrid(j, i) :: SameFrame(r.blocks[j][i], g.blocks[j][i])
  {
    HitBlocksKeepFrames(BeforeBlocks(g, keys));
    var g3 := HitBlocksFrom(BeforeBlocks(g, keys), 0);
    g3.(ball := Position(g3.ball), paddle := Position(g3.paddle))
  }
}

=== FILE: game_proofs.dfy ===
/**
  Properties of whole frames: the state every frame keeps, the reset on a
  miss, wall bounces, the block phase's parity rule, and the harmlessness of
  the byte narrowing in the collision test for every state the game reaches.
 */
module GameProofs {
  import opened Oam
  import opened Sprites
  import opened Game

  /** The ball on screen, with its start speed up to sign, in its own slot. */
  predicate BallOn(b: Sprite) {
    && b.w == 8 && b.h == 8 && b.slot == BALL_SLOT
    && 0 <= b.x <= MaxX(b) && 0 <= b.y <= MaxY(b)
    && (b.dx == BALL_DX || b.dx == -BALL_DX)
    && (b.dy == BALL_DY || b.dy == -BALL_DY)
  }

  /** The paddle on screen, in its own slot. */
  predicate PaddleOn(p: Sprite) {
    && p.w == 32 && p.h == 8 && p.slot == PADDLE_SLOT
    && 0 <= p.x <= MaxX(p) && 0 <= p.y <= MaxY(p)
  }

  predicate BallOk(b: Sprite) {
    BallOn(b) && Synced(b)
  }

  predicate PaddleOk(p: Sprite) {
    PaddleOn(p) && Synced(p)
  }

  /** Block (j, i) sits at its home position, in its own slot, and its record shows that position. */
  predicate BlockOk(b: Sprite, j: int, i: int) {
    && b.x == BlockX(i) && b.y == BlockY(j) && b.w == 32 && b.h == 8
    && b.slot == BlockSlot(j, i) && Synced(b)
  }

  predicate BlocksOk(blocks: seq<seq<Sprite>>) {
    GridShape(blocks) && forall j, i | 0 <= j < GRID && 0 <= i < GRID :: BlockOk(blocks[j][i], j, i)
  }

  /**
    What holds of the game between any two frames: ball and paddle on screen,
    the ball's speed unchanged up to sign, every block at home, every sprite in
    its own slot, and every record showing its sprite's position.
   */
  predicate Inv(g: State) {
    BallOk(g.ball) && PaddleOk(g.paddle) && BlocksOk(g.blocks)
  }

  lemma SetupInv(paddleDx: int, paddleDy: int)
    ensures Inv(Setup(paddleDx, paddleDy))
  {
  }

  /** The 27 sprites of a game in its steady state use 27 different hardware slots. */
  lemma InvSlotsDistinct(g: State, j: int, i: int, j': int, i': int)
    requires Inv(g) && InGrid(j, i) && InGrid(j', i')
    ensures g.ball.slot != g.paddle.slot
    ensures g.blocks[j][i].slot != g.ball.slot && g.blocks[j][i].slot != g.paddle.slot
    ensures (j, i) != (j', i') ==> g.blocks[j][i].slot != g.blocks[j'][i'].slot
  {
    BlockSlotsDistinct(j, i, j', i');
  }

  /** A ball at or below the blocks' lowest row (y >= 48) breaks none of them. */
  lemma {:induction false} BallBelowBlocks(ball: Sprite, blocks: seq<seq<Sprite>>, k: nat)
    requires GridShape(blocks) && k <= GRID * GRID
    requires forall j, i | InGrid(j, i) :: blocks[j][i].y == BlockY(j) && blocks[j][i].h == 8
    requires BlockY(GRID - 1) + 8 <= ball.y < 256
    ensures HitCount(ball, blocks, k) == 0
    decreases GRID * GRID - k
  {
    if k < GRID * GRID {
      VisitIndexInverse(k);
      BallBelowBlocks(ball, blocks, k + 1);
    }
  }

  /**
    The block phase of a frame, from the state the wall and paddle phase
    leaves: every shown block the ball overlaps is hidden, every other block is
    untouched, and the ball's vertical velocity ends reversed exactly when an
    odd number of blocks were broken.
   */
  lemma StepBlockPhase(g: State, keys: bv16, j: int, i: int)
    requires GridShape(g.blocks) && InGrid(j, i)
    ensures
      var g2 := BeforeBlocks(g, keys);
      && Step(g, keys).ball.dy == Flip(g2.ball.dy, HitCount(g2.ball, g2.blocks, 0))
      && Step(g, keys).blocks[j][i] ==
           if NewlyHit(g2.ball, g2.blocks[j][i]) then HideSprite(g2.blocks[j][i]) else g2.blocks[j][i]
  {
    var g2 := BeforeBlocks(g, keys);
    HitBlocksBall(g2, 0);
    HitBlocksCells(g2, 0, j, i);
  }

  /**
    A block that is already hidden plays no part in the block phase: it stays
    as it is, and replacing it by any other hidden block leaves the ball as it
    would otherwise be.
   */
  lemma HiddenBlockIrrelevant(g: State, j: int, i: int, s: Sprite)
    requires GridShape(g.blocks) && InGrid(j, i)
    requires Hidden(g.blocks[j][i]) && Hidden(s)
    ensures HitBlocksFrom(g, 0).blocks[j][i] == g.blocks[j][i]
    ensures HitBlocksFrom(g.(blocks := g.blocks[j := g.blocks[j][i := s]]), 0).ball == HitBlocksFrom(g, 0).ball
  {
    var g' := g.(blocks := g.blocks[j := g.blocks[j][i := s]]);
    HitBlocksCells(g, 0, j, i);
    HiddenBlockUncounted(g.ball, g.blocks, j, i, s);
    HitBlocksBall(g, 0);
    HitBlocksBall(g', 0);
  }

  /** Swapping one hidden block for another does not change how many blocks the ball breaks. */
  lemma HiddenBlockUncounted(ball: Sprite, blocks: seq<seq<Sprite>>, j: int, i: int, s: Sprite)
    requires GridShape(blocks) && InGrid(j, i)
    requires Hidden(blocks[j][i]) && Hidden(s)
    ensures GridShape(blocks[j := blocks[j][i := s]])
    ensures HitCount(ball, blocks[j := blocks[j][i := s]], 0) == HitCount(ball, blocks, 0)
  {
    var blocks' := blocks[j := blocks[j][i := s]];
    forall j', i' | InGrid(j', i') && VisitIndex(j', i') >= 0
      ensures NewlyHit(ball, blocks'[j'][i']) == NewlyHit(ball, blocks[j'][i'])
    {
      if (j', i') != (j, i) {
        assert blocks'[j'][i'] == blocks[j'][i'];
      }
    }
    HitCountFrame(ball, blocks', ball, blocks, 0);
  }

  /** The part of a frame before the block loop keeps ball, paddle and blocks where they may be. */
  lemma BeforeBlocksOk(g: State, keys: bv16)
    requires Inv(g)
    ensures
      var g2 := BeforeBlocks(g, keys);
      BallOn(g2.ball) && PaddleOn(g2.paddle) && BlocksOk(g2.blocks)
  {
    var paddle := PaddleInput(g.paddle, keys);
    var ball := Bounce(Velocity(g.ball), paddle);
    assert BallOn(ball);
    assert PaddleOn(paddle);
  }

  /** The block loop keeps ball, paddle and blocks where they may be. */
  lemma HitBlocksOk(g: State)
    requires BallOn(g.ball) && PaddleOn(g.paddle) && BlocksOk(g.blocks)
    ensures
      var r := HitBlocksFrom(g, 0);
      BallOn(r.ball) && PaddleOn(r.paddle) && BlocksOk(r.blocks)
  {
    HitBlocksKeepBlocks(g);
    HitBlocksKeepBall(g);
  }

  lemma HitBlocksKeepBall(g: State)
    requires BallOn(g.ball) && GridShape(g.blocks)
    ensures BallOn(HitBlocksFrom(g, 0).ball)
  {
    var r := HitBlocksFrom(g, 0);
    assert r.ball.dy == g.ball.dy || r.ball.dy == -g.ball.dy by {
      HitBlocksBall(g, 0);
      FlipSign(g.ball.dy, HitCount(g.ball, g.blocks, 0));
    }
  }

  lemma FlipSign(dy: int, n: nat)
    ensures Flip(dy, n) == dy || Flip(dy, n) == -dy
  {
  }

  lemma HitBlocksKeepBlocks(g: State)
    requires BlocksOk(g.blocks)
    ensures BlocksOk(HitBlocksFrom(g, 0).blocks)
  {
    var r := HitBlocksFrom(g, 0);
    forall j, i | 0 <= j < GRID && 0 <= i < GRID
      ensures BlockOk(r.blocks[j][i], j, i)
    {
      HitBlocksCells(g, 0, j, i);
      HideKeepsBlockOk(g.blocks[j][i], j, i);
    }
  }

  lemma HideKeepsBlockOk(b: Sprite, j: int, i: int)
    requires BlockOk(b, j, i)
    ensures BlockOk(HideSprite(b), j, i)
  {
  }

  /** Every frame keeps the steady-state invariant. */
  lemma StepPreservesInv(g: State, keys: bv16)
    requires Inv(g)
    ensures Inv(Step(g, keys))
  {
    var g2 := BeforeBlocks(g, keys);
    BeforeBlocksOk(g, keys);
    var g3 := HitBlocksFrom(g2, 0);
    HitBlocksOk(g2);
    PositionedInv(g3);
  }

  /** Pushing the ball's and paddle's positions to hardware completes the invariant. */
  lemma PositionedInv(g: State)
    requires BallOn(g.ball) && PaddleOn(g.paddle) && BlocksOk(g.blocks)
    ensures Inv(g.(ball := Position(g.ball), paddle := Position(g.paddle)))
  {
  }

  /**
    In every steady state, each collision test a frame makes sees positions
    that fit in a byte, so the narrowing to `uint8` changes no outcome.
   */
  lemma StepCollisionsExact(g: State, keys: bv16, j: int, i: int)
    requires Inv(g) && InGrid(j, i)
    ensures
      var paddle := PaddleInput(g.paddle, keys);
      Collides(Velocity(g.ball), paddle) == Overlap(Velocity(g.ball), paddle)
    ensures
      var g2 := BeforeBlocks(g, keys);
      Collides(g2.ball, g2.blocks[j][i]) == Overlap(g2.ball, g2.blocks[j][i])
  {
    var paddle := PaddleInput(g.paddle, keys);
    var ball := Bounce(Velocity(g.ball), paddle);
    CollidesIsOverlapInRange(Velocity(g.ball), paddle);
    var g2 := BeforeBlocks(g, keys);
    if !Missed(ball) {
      assert g2.ball == ball && g2.blocks == g.blocks;
    }
    CollidesIsOverlapInRange(g2.ball, g2.blocks[j][i]);
  }

  /**
    A miss resets the rally in the same frame: ball back at (50, 50) moving
    (2, 1), paddle back at (104, 150) with the velocity the key phase left,
    and all 25 blocks shown at home, none of them broken by the re-seeded ball.
   */
  lemma MissResets(g: State, keys: bv16)
    requires Inv(g)
    requires Missed(Velocity(g.ball))
    ensures
      var r := Step(g, keys);
      && r.ball.x == BALL_X && r.ball.y == BALL_Y && r.ball.dx == BALL_DX && r.ball.dy == BALL_DY
      && r.paddle.x == PADDLE_X && r.paddle.y == PADDLE_Y
      && r.paddle.dx == PaddleInput(g.paddle, keys).dx && r.paddle.dy == g.paddle.dy
      && forall j, i | InGrid(j, i) :: r.blocks[j][i].x == BlockX(i) && r.blocks[j][i].y == BlockY(j) && !Hidden(r.blocks[j][i])
  {
    var g2 := BeforeBlocks(g, keys);
    MissResetsBefore(g, keys);
    NoHitsBelowBlocks(g2);
  }

  /** On a miss, the part of the frame before the block loop is the reset. */
  lemma MissResetsBefore(g: State, keys: bv16)
    requires Inv(g)
    requires Missed(Velocity(g.ball))
    ensures
      var g2 := BeforeBlocks(g, keys);
      && g2.ball.x == BALL_X && g2.ball.y == BALL_Y && g2.ball.dx == BALL_DX && g2.ball.dy == BALL_DY
      && g2.paddle.x == PADDLE_X && g2.paddle.y == PADDLE_Y
      && g2.paddle.dx == PaddleInput(g.paddle, keys).dx && g2.paddle.dy == g.paddle.dy
      && forall j, i | InGrid(j, i) ::
           g2.blocks[j][i].x == BlockX(i) && g2.blocks[j][i].y == BlockY(j)
           && g2.blocks[j][i].h == 8 && !Hidden(g2.blocks[j][i])
  {
    var paddle := PaddleInput(g.paddle, keys);
    var ball := Bounce(Velocity(g.ball), paddle);
    assert Missed(ball);
  }

  /** When the ball is below the blocks' lowest row the block loop changes nothing. */
  lemma NoHitsBelowBlocks(g: State)
    requires GridShape(g.blocks)
    requires forall j, i | InGrid(j, i) :: g.blocks[j][i].y == BlockY(j) && g.blocks[j][i].h == 8
    requires BlockY(GRID - 1) + 8 <= g.ball.y < 256
    ensures HitBlocksFrom(g, 0) == g
  {
    var r := HitBlocksFrom(g, 0);
    assert r.ball == g.ball by {
      BallBelowBlocks(g.ball, g.blocks, 0);
      HitBlocksBall(g, 0);
    }
    assert r.blocks == g.blocks by {
      NoHitsBelowBlocksCells(g);
      GridEq(r.blocks, g.blocks);
    }
  }

  lemma NoHitsBelowBlocksCells(g: State)
    requires GridShape(g.blocks)
    requires forall j, i | InGrid(j, i) :: g.blocks[j][i].y == BlockY(j) && g.blocks[j][i].h == 8
    requires BlockY(GRID - 1) + 8 <= g.ball.y < 256
    ensures forall j, i | InGrid(j, i) :: HitBlocksFrom(g, 0).blocks[j][i] == g.blocks[j][i]
  {
    var r := HitBlocksFrom(g, 0);
    forall j, i | InGrid(j, i)
      ensures r.blocks[j][i] == g.blocks[j][i]
    {
      HitBlocksCells(g, 0, j, i);
    }
  }

  lemma GridEq(a: seq<seq<Sprite>>, b: seq<seq<Sprite>>)
    requires GridShape(a) && GridShape(b)
    requires forall j, i | InGrid(j, i) :: a[j][i] == b[j][i]
    ensures a == b
  {
    forall j | 0 <= j < GRID
      ensures a[j] == b[j]
    {
      assert forall i | 0 <= i < GRID :: a[j][i] == b[j][i];
    }
  }

  /**
    The horizontal wall bounce: a ball whose move would take it to or past the
    left wall is stopped at x = 0 with its horizontal velocity reversed (as
    long as the same frame is not a miss).
   */
  lemma WallBounceLeft(g: State, keys: bv16)
    requires GridShape(g.blocks) && g.ball.w == 8 && g.ball.h == 8
    requires g.ball.x + g.ball.dx <= 0
    requires g.ball.y + g.ball.dy < MaxY(g.ball)
    ensures Step(g, keys).ball.x == 0 && Step(g, keys).ball.dx == -g.ball.dx
  {
    var paddle := PaddleInput(g.paddle, keys);
    var ball := Bounce(Velocity(g.ball), paddle);
    assert BeforeBlocks(g, keys).ball == ball;
  }

  /** The same on the right wall: stopped at x = SCREEN_WIDTH - w with dx reversed. */
  lemma WallBounceRight(g: State, keys: bv16)
    requires GridShape(g.blocks) && g.ball.w == 8 && g.ball.h == 8
    requires g.ball.x + g.ball.dx >= MaxX(g.ball)
    requires g.ball.y + g.ball.dy < MaxY(g.ball)
    ensures Step(g, keys).ball.x == MaxX(g.ball) && Step(g, keys).ball.dx == -g.ball.dx
  {
    var paddle := PaddleInput(g.paddle, keys);
    var ball := Bounce(Velocity(g.ball), paddle);
    assert BeforeBlocks(g, keys).ball == ball;
  }

  /**
    Both direction keys held: the left branch runs, then the right one, so the
    paddle ends with dx = -2; a paddle that does not move vertically returns to
    where it was unless the first move hit the right edge.
   */
  lemma PaddleBothKeys(p: Sprite, keys: bv16)
    requires keys & KEY_LEFT != 0 && keys & KEY_RIGHT != 0
    requires p.w <= SCREEN_WIDTH - VELOCITY && 0 <= p.x <= MaxX(p)
    ensures PaddleInput(p, keys).dx == -VELOCITY
    ensures p.dy == 0 && 0 <= p.y <= MaxY(p) ==> PaddleInput(p, keys).y == p.y
    ensures PaddleInput(p, keys).x == if p.x + VELOCITY > MaxX(p) then MaxX(p) - VELOCITY else p.x
  {
  }

  /**
    With a vertical velocity of zero the paddle never leaves its start row,
    whatever keys are held and whether or not the frame resets.
   */
  lemma PaddleKeepsRow(g: State, keys: bv16)
    requires GridShape(g.blocks) && PaddleOn(g.paddle) && g.paddle.dy == 0 && g.paddle.y == PADDLE_Y
    ensures Step(g, keys).paddle.y == PADDLE_Y && Step(g, keys).paddle.dy == 0
  {
    var g2 := BeforeBlocks(g, keys);
    assert g2.paddle.y == PADDLE_Y && g2.paddle.dy == 0;
    assert HitBlocksFrom(g2, 0).paddle == g2.paddle;
  }

  /**
    The paddle's vertical velocity is never written, so it is whatever the
    heap held; a value of 2 or more sends the paddle from its row to the
    bottom edge on the first key press.
   */
  lemma PaddleDriftsWithStaleDy(p: Sprite, keys: bv16)
    requires PaddleOk(p) && p.y == PADDLE_Y && p.dy >= MaxY(p) - PADDLE_Y
    requires keys & (KEY_LEFT | KEY_RIGHT) != 0
    ensures PaddleInput(p, keys).y == MaxY(p)
  {
  }

  /**
    A block hidden in a frame that is not a miss stays exactly as it is: it is
    neither broken again nor does it reverse the ball.
   */
  lemma HiddenStaysHidden(g: State, keys: bv16, j: int, i: int)
    requires GridShape(g.blocks) && InGrid(j, i) && Hidden(g.blocks[j][i])
    requires !Missed(Velocity(g.ball))
    ensures Step(g, keys).blocks[j][i] == g.blocks[j][i]
  {
    var g2 := BeforeBlocks(g, keys);
    HitBlocksCells(g2, 0, j, i);
  }
}

=== FILE: oam.dfy ===
/**
  Sprite attribute words (OAM) and palette colours of the handheld's sprite
  hardware, as the breakout game uses them.

  A hardware sprite record holds three 16-bit attribute words. attr0 carries
  the y coordinate in bits 0-7 and the hide/affine pair in bits 8-9; attr1
  carries the x coordinate in bits 0-8; attr2 names the first tile. The game
  reads and writes these words only through masked read-modify-write
  operations, modelled here as pure functions on `bv16` values.
 */
module Oam {

  const Y_MASK: bv16 := 0x0FF
  const X_MASK: bv16 := 0x1FF
  /** Bits 8-9 of attr0: the affine/hide pair. */
  const HIDE_MASK: bv16 := 0x300
  /** Bit 9 of attr0 with bit 8 clear: "do not display this sprite". */
  const HIDE: bv16 := 0x200

  /** One record of the sprite attribute table (the fourth, unused word is left out). */
  datatype Obj = Obj(attr0: bv16, attr1: bv16, attr2: bv16)

  /** The hide flag as the game reads it: zero when shown, non-zero when hidden. */
  function IsHidden(attr0: bv16): (r: bv16)
    ensures r == 0 || r == HIDE
    ensures r != 0 <==> (attr0 >> 9) & 1 == 1
  {
    attr0 & HIDE
  }

  /** Sets the hide/affine pair to "hidden", keeping every other bit. */
  function Hide(attr0: bv16): (r: bv16)
    ensures IsHidden(r) != 0
    ensures r & HIDE_MASK == HIDE
    ensures r & !HIDE_MASK == attr0 & !HIDE_MASK
  {
    (attr0 & !HIDE_MASK) | HIDE
  }

  /** Clears the hide/affine pair, keeping every other bit. */
  function Unhide(attr0: bv16): (r: bv16)
    ensures IsHidden(r) == 0
    ensures r & HIDE_MASK == 0
    ensures r & !HIDE_MASK == attr0 & !HIDE_MASK
  {
    attr0 & !HIDE_MASK
  }

  /** Hiding and showing leave the y field alone. */
  lemma HideKeepsY(attr0: bv16)
    ensures Hide(attr0) & Y_MASK == attr0 & Y_MASK
    ensures Unhide(attr0) & Y_MASK == attr0 & Y_MASK
  {
  }

  lemma HideIdempotent(attr0: bv16)
    ensures Hide(Hide(attr0)) == Hide(attr0)
  {
  }

  lemma UnhideIdempotent(attr0: bv16)
    ensures Unhide(Unhide(attr0)) == Unhide(attr0)
  {
  }

  /** Hiding and then showing is the same as showing, and the other way round. */
  lemma HideUnhideAbsorb(attr0: bv16)
    ensures Unhide(Hide(attr0)) == Unhide(attr0)
    ensures Hide(Unhide(attr0)) == Hide(attr0)
  {
  }

  /**
    The low 8 bits of a two's-complement C `int`, as `v & 0xFF` computes them:
    for every integer, negative ones included, the Euclidean remainder mod 256,
    held in a 16-bit word.
   */
  function Low8(v: int): (r: bv16)
    ensures r & !Y_MASK == 0
    ensures r == (v % 256) as bv16
  {
    var m := v % 256;
    var b: bv8 := m as bv8;
    Widen8(m);
    b as bv16
  }

  /** The low 9 bits of a two's-complement C `int`, as `v & 0x1FF` computes them. */
  function Low9(v: int): (r: bv16)
    ensures r & !X_MASK == 0
    ensures r == (v % 512) as bv16
  {
    var m := v % 512;
    var b: bv9 := m as bv9;
    Widen9(m);
    b as bv16
  }

  /** A value below 256 is the same word whether it is narrowed to 8 bits first or not. */
  lemma Widen8(m: int)
    requires 0 <= m < 256
    ensures (m as bv8) as bv16 == m as bv16
    ensures (m as bv8) as bv16 & !Y_MASK == 0
  {
  }

  lemma Widen9(m: int)
    requires 0 <= m < 512
    ensures (m as bv9) as bv16 == m as bv16
    ensures (m as bv9) as bv16 & !X_MASK == 0
  {
  }

  /** Writes y into bits 0-7 of attr0; the shape, mode and hide bits are kept. */
  function PlaceY(attr0: bv16, y: int): (r: bv16)
    ensures r & Y_MASK == Low8(y)
    ensures r & !Y_MASK == attr0 & !Y_MASK
    ensures IsHidden(r) == IsHidden(attr0)
  {
    (attr0 & !Y_MASK) | Low8(y)
  }

  /** Writes x into bits 0-8 of attr1; the flip and size bits are kept. */
  function PlaceX(attr1: bv16, x: int): (r: bv16)
    ensures r & X_MASK == Low9(x)
    ensures r & !X_MASK == attr1 & !X_MASK
  {
    (attr1 & !X_MASK) | Low9(x)
  }

  lemma MaskSplit(v: bv16, m: bv16)
    ensures (v & !m) | (v & m) == v
  {
  }

  /** A word whose coordinate field already holds the coordinate is left unchanged by placing it. */
  lemma PlaceYOfPlaced(attr0: bv16, y: int)
    requires attr0 & Y_MASK == Low8(y)
    ensures PlaceY(attr0, y) == attr0
  {
    MaskSplit(attr0, Y_MASK);
  }

  lemma PlaceXOfPlaced(attr1: bv16, x: int)
    requires attr1 & X_MASK == Low9(x)
    ensures PlaceX(attr1, x) == attr1
  {
    MaskSplit(attr1, X_MASK);
  }

  /** Placing a coordinate does not disturb the hide pair, and hiding does not disturb the coordinate. */
  lemma PlaceYCommutesWithHide(attr0: bv16, y: int)
    ensures PlaceY(Hide(attr0), y) == Hide(PlaceY(attr0, y))
    ensures PlaceY(Unhide(attr0), y) == Unhide(PlaceY(attr0, y))
  {
  }

  /** Packs three 5-bit channels into a 15-bit colour: blue in bits 10-14, green in 5-9, red in 0-4. */
  function GetColor(r: bv16, g: bv16, b: bv16): (c: bv16)
    ensures c < 0x8000
    ensures c & 31 == r & 31
    ensures (c >> 5) & 31 == g & 31
    ensures (c >> 10) & 31 == b & 31
  {
    ((b & 0x1f) << 10) | ((g & 0x1f) << 5) | (r & 0x1f)
  }

  /** Every 15-bit colour is packed from its own three channels, so packing loses nothing. */
  lemma GetColorRoundTrip(c: bv16)
    requires c < 0x8000
    ensures GetColor(c & 31, (c >> 5) & 31, (c >> 10) & 31) == c
  {
  }
}

=== FILE: sprite.dfy ===
/**
  The game's sprite entity: a logical object (position, velocity, hitbox)
  paired with the hardware sprite record it drives, plus the two physics
  services the game loop uses, velocity integration and the bounding-box
  collision test.
 */
module Sprites {
  import opened Oam

  const SCREEN_WIDTH := 240
  const SCREEN_HEIGHT := 160

  /** An unsigned 8-bit value, the type of the hitbox dimensions. */
  type U8 = n: int | 0 <= n < 256

  /**
    Position and velocity are C `int`s; the hitbox is `uint8`. The hardware
    record is held by value and `slot` is its index in the sprite attribute
    table, the identity the C code keeps as a pointer.
   */
  datatype Sprite = Sprite(x: int, y: int, dx: int, dy: int, w: U8, h: U8, slot: nat, obj: Obj)

  predicate Hidden(s: Sprite) {
    IsHidden(s.obj.attr0) != 0
  }

  /** The hardware record shows the sprite's current position. */
  predicate Synced(s: Sprite) {
    && s.obj.attr0 & Y_MASK == Low8(s.y)
    && s.obj.attr1 & X_MASK == Low9(s.x)
  }

  function HideSprite(s: Sprite): (r: Sprite)
    ensures Hidden(r)
    ensures r.obj.attr0 & HIDE_MASK == HIDE
    ensures r.(obj := s.obj) == s
    ensures r.obj.attr0 & !HIDE_MASK == s.obj.attr0 & !HIDE_MASK
    ensures r.obj.attr1 == s.obj.attr1 && r.obj.attr2 == s.obj.attr2
    ensures Synced(s) ==> Synced(r)
  {
    var a := Hide(s.obj.attr0);
    HideKeepsY(s.obj.attr0);
    assert IsHidden(a) != 0;
    s.(obj := s.obj.(attr0 := a))
  }

  function UnhideSprite(s: Sprite): (r: Sprite)
    ensures !Hidden(r)
    ensures r.obj.attr0 & HIDE_MASK == 0
    ensures r.(obj := s.obj) == s
    ensures r.obj.attr0 & !HIDE_MASK == s.obj.attr0 & !HIDE_MASK
    ensures r.obj.attr1 == s.obj.attr1 && r.obj.attr2 == s.obj.attr2
    ensures Synced(s) ==> Synced(r)
  {
    HideKeepsY(s.obj.attr0);
    s.(obj := s.obj.(attr0 := Unhide(s.obj.attr0)))
  }

  /** Showing a sprite that is already shown changes nothing. */
  lemma UnhideOfShown(s: Sprite)
    requires s.obj.attr0 & HIDE_MASK == 0
    ensures UnhideSprite(s) == s
  {
  }

  /**
    Pushes the sprite's position into its hardware record: y into the low
    byte of attr0, x into the low nine bits of attr1, every other bit kept.
   */
  function Position(s: Sprite): (r: Sprite)
    ensures Synced(r)
    ensures r.(obj := s.obj) == s
    ensures r.obj.attr0 & !Y_MASK == s.obj.attr0 & !Y_MASK
    ensures r.obj.attr1 & !X_MASK == s.obj.attr1 & !X_MASK
    ensures r.obj.attr2 == s.obj.attr2
    ensures Hidden(r) == Hidden(s)
  {
    s.(obj := s.obj.(attr0 := PlaceY(s.obj.attr0, s.y), attr1 := PlaceX(s.obj.attr1, s.x)))
  }

  lemma PositionIdempotent(s: Sprite)
    ensures Position(Position(s)) == Position(s)
  {
  }

  /** A sprite whose record already shows its position is left as it is by Position. */
  lemma PositionOfSynced(s: Sprite)
    requires Synced(s)
    ensures Position(s) == s
  {
    PlaceYOfPlaced(s.obj.attr0, s.y);
    PlaceXOfPlaced(s.obj.attr1, s.x);
  }

  /**
    Binds a hardware record to a new sprite at (x0, y0) with a w-by-h hitbox
    and pushes the position at once. The velocity is not set by the C code
    (it is whatever the fresh heap block held), so it is a parameter here.
   */
  function CreateSprite(obj: Obj, slot: nat, x0: int, y0: int, w: U8, h: U8, dx0: int, dy0: int): (r: Sprite)
    ensures r.x == x0 && r.y == y0 && r.w == w && r.h == h && r.slot == slot
    ensures r.dx == dx0 && r.dy == dy0
    ensures Synced(r)
    ensures r.obj.attr0 & !Y_MASK == obj.attr0 & !Y_MASK
    ensures r.obj.attr1 & !X_MASK == obj.attr1 & !X_MASK
    ensures r.obj.attr2 == obj.attr2
  {
    Position(Sprite(x0, y0, dx0, dy0, w, h, slot, obj))
  }

  /** The clamp bounds `SCREEN_WIDTH - w` and `SCREEN_HEIGHT - h`, computed in C `int`. */
  function MaxX(s: Sprite): int { SCREEN_WIDTH - s.w }
  function MaxY(s: Sprite): int { SCREEN_HEIGHT - s.h }

  /**
    Moves the sprite by its velocity, then saturates each coordinate first
    at 0 and then at the screen edge minus the hitbox. When the hitbox is
    wider than the screen the upper bound wins and is negative.
   */
  function Velocity(s: Sprite): (r: Sprite)
    ensures r.(x := s.x, y := s.y) == s
    ensures s.w <= SCREEN_WIDTH ==> 0 <= r.x <= MaxX(s)
    ensures s.h <= SCREEN_HEIGHT ==> 0 <= r.y <= MaxY(s)
    ensures 0 <= s.x + s.dx <= MaxX(s) ==> r.x == s.x + s.dx
    ensures 0 <= s.y + s.dy <= MaxY(s) ==> r.y == s.y + s.dy
    ensures s.x + s.dx < 0 && s.w <= SCREEN_WIDTH ==> r.x == 0
    ensures s.y + s.dy < 0 && s.h <= SCREEN_HEIGHT ==> r.y == 0
    ensures s.x + s.dx > MaxX(s) ==> r.x == MaxX(s)
    ensures s.y + s.dy > MaxY(s) ==> r.y == MaxY(s)
  {
    var x0 := s.x + s.dx;
    var y0 := s.y + s.dy;
    var x1 := if x0 < 0 then 0 else x0;
    var x2 := if x1 > SCREEN_WIDTH - s.w then SCREEN_WIDTH - s.w else x1;
    var y1 := if y0 < 0 then 0 else y0;
    var y2 := if y1 > SCREEN_HEIGHT - s.h then SCREEN_HEIGHT - s.h else y1;
    s.(x := x2, y := y2)
  }

  /** Conversion of a C `int` to `uint8`: reduction modulo 256, negative values included. */
  function Trunc8(v: int): (r: U8)
    ensures 0 <= v < 256 ==> r == v
    ensures (v - r) % 256 == 0
  {
    v % 256
  }

  /**
    The game's collision test: both positions are first narrowed to `uint8`,
    then the two hitboxes are compared as half-open intervals on each axis.
   */
  function Collides(a: Sprite, b: Sprite): (r: bool)
    ensures InByteRange(a) && InByteRange(b) ==> (r <==> Overlap(a, b))
  {
    var x1, x2, y1, y2 := Trunc8(a.x), Trunc8(b.x), Trunc8(a.y), Trunc8(b.y);
    x1 < x2 + b.w && x2 < x1 + a.w && y1 < y2 + b.h && y2 < y1 + a.h
  }

  /** The reference overlap test on the full integer coordinates. */
  predicate Overlap(a: Sprite, b: Sprite) {
    && a.x < b.x + b.w && b.x < a.x + a.w
    && a.y < b.y + b.h && b.y < a.y + a.h
  }

  predicate InByteRange(s: Sprite) {
    0 <= s.x < 256 && 0 <= s.y < 256
  }

  lemma CollidesSymmetric(a: Sprite, b: Sprite)
    ensures Collides(a, b) == Collides(b, a)
  {
  }

  /** For positions that fit in a byte the narrowing is harmless: the test is the plain overlap. */
  lemma CollidesIsOverlapInRange(a: Sprite, b: Sprite)
    requires InByteRange(a) && InByteRange(b)
    ensures Collides(a, b) == Overlap(a, b)
  {
  }

  /** Outside that range it is not: a sprite 256 pixels to the right is taken for one on top. */
  lemma CollidesWrapsOutOfRange(a: Sprite)
    requires a.x == 0 && a.y == 0 && a.w == 8 && a.h == 8
    ensures Collides(a, a.(x := 256)) && !Overlap(a, a.(x := 256))
  {
  }

  /** Boxes that share only an edge do not collide; boxes that share an area do. */
  lemma CollidesExamples(a: Sprite)
    requires a.x == 0 && a.y == 0 && a.w == 8 && a.h == 8
    ensures !Collides(a, a.(x := 8))
    ensures !Collides(a, a.(y := 8))
    ensures Collides(a, a.(x := 4, y := 4))
  {
  }

  /** A sprite collides with itself exactly when its hitbox is not empty. */
  lemma CollidesSelf(a: Sprite)
    ensures Collides(a, a) <==> a.w > 0 && a.h > 0
  {
  }
}
